=== FILE: README.md ===
# simple_issue_creator, modelled in Dafny

`simple_issue_creator` is a small Python helper for GUI programs. It opens
a window where a user picks an issue type, types a title and details, and
presses "Post Issue". It then checks the submission and opens the
repository's GitHub new-issue page, prefilled through URL query
parameters. Installed as an exception hook, it also offers to report an
uncaught exception the same way.

This project models the parts of `IssueReporter` that compute, as pure
functions over strings, and proves what they guarantee:

- `make_versions` and the `body` template filled by `make_markdown`, in
  module `Markdown`.
- `github_issue_post_validate` and the issue-type selection loop, in
  module `Validation`. The checks return the first failing reason instead
  of showing a popup.
- The title retagging done when an issue-type radio button is clicked, in
  module `Retagging`.
- The new-issue link built by `post_issue`, the crash draft written by
  `error`, and the `open_reporter` event loop as a function from events to
  effects, in module `Posting`.
- Python's `str.strip()` and `str.split()`, in module `Whitespace`.
- The other string methods the code uses (`find`, `join`, `startswith`,
  `endswith`, `replace`), in module `Text`. `Text.SplitOn` splits at line
  feeds. The code never calls it; the model uses it to read the versions
  block and the body back as lines.

Every operation is paired with an independent reference definition, an
inverse, or an invariant, and a lemma links the two:

| operation | partner |
|---|---|
| `split()` | counting word beginnings and squeezing out whitespace (these fix how many words there are and what they hold together, not where one word ends and the next begins; line 151 uses only the count) |
| the selection loop | the three types tried in order |
| the validation chain | the four checks stated without string methods |
| the `%5Cn` correction | its inverse and its idempotence |
| the versions block and the body | reading them back line by line |

The URL encoder, the platform string, the formatted traceback and the
user's answer to the yes/no question are parameters.

## Model

| member | source | states |
|---|---|---|
| Whitespace.Strip | simple_issue_creator/__init__.py:143 | `strip()` never lengthens the title. The result is empty exactly when the title is all whitespace, and otherwise begins and ends with a non-whitespace character |
| Whitespace.StripParts | simple_issue_creator/__init__.py:143 | the title is leading whitespace, then the stripped text, then trailing whitespace: stripping removes whitespace and nothing else |
| Whitespace.StripIdempotent | simple_issue_creator/__init__.py:193 | stripping twice gives the same as stripping once, so a retagged title needs no second strip |
| Whitespace.StripAfterSpace | simple_issue_creator/__init__.py:193 | leading whitespace never changes the stripped text |
| Whitespace.StripBeforeSpace | simple_issue_creator/__init__.py:143 | trailing whitespace never changes the stripped text |
| Whitespace.SplitWords | simple_issue_creator/__init__.py:151 | every word `split()` yields is non-empty and holds no whitespace |
| Whitespace.SplitCount | simple_issue_creator/__init__.py:151 | the number of words `split()` yields equals the number of word beginnings, a count defined without splitting |
| Whitespace.SplitContents | simple_issue_creator/__init__.py:151 | the words put back together are exactly the non-whitespace characters of the details, in order |
| Whitespace.SplitJoin | simple_issue_creator/__init__.py:151 | non-empty words without whitespace, joined by spaces, split back into the same words |
| Text.Find | simple_issue_creator/__init__.py:193 | `find(']')` gives the first position holding `]`, and reports absence exactly when there is no `]` |
| Text.SplitOnJoin | simple_issue_creator/__init__.py:73 | joining one or more lines that hold no line feed and splitting at line feeds gives the lines back (an empty list joins to the empty string, which reads back as one empty line) |
| Markdown.VersionLines | simple_issue_creator/__init__.py:68-71 | one line per versions entry, in mapping order, each of the form `` `name` : version `` |
| Markdown.MakeVersions | simple_issue_creator/__init__.py:68-73 | the versions block is empty exactly when the mapping is empty |
| Markdown.VersionsOneLinePerEntry | simple_issue_creator/__init__.py:68-73 | for a non-empty mapping of entries without line feeds, the block read back line by line has exactly one line per entry, in order, with nothing after the last line |
| Markdown.MultiLineVersionSplits | simple_issue_creator/__init__.py:234-235 | a `sys.version`-style version string with a line feed before `[GCC …]` reads back as two lines for its one entry |
| Markdown.BodyLines | simple_issue_creator/__init__.py:20-38 | the body read back line by line is the template's fixed lines in order, with the lines of the issue type, platform, versions and description each in its own place, and the indentation line last |
| Validation.SelectedType | simple_issue_creator/__init__.py:133-137 | the selection loop picks Question over Bug over Enhancement. It picks none exactly when no flag is set, and otherwise a listed type whose flag is set |
| Validation.ChecksAgree | simple_issue_creator/__init__.py:139-153 | each of the four checks as written agrees with its reference definition: no flag set; a title of whitespace only; a stripped title whose first and last characters are brackets; fewer than three word beginnings in the details |
| Validation.ValidateFirstFailing | simple_issue_creator/__init__.py:133-155 | the verdict is valid exactly when no check fails, and it is invalid for a given reason exactly when that check fails and no earlier check fails |
| Validation.NoTypeDominates | simple_issue_creator/__init__.py:139-141 | with no issue type chosen the verdict is "Must choose issue type", whatever the title and details hold |
| Validation.ClosingBracketTitleRejected | simple_issue_creator/__init__.py:147-149 | the title "[Bug] x]" is rejected as only a tag, although text follows the tag |
| Validation.ExampleNoType | simple_issue_creator/__init__.py:139-141 | with no issue type chosen, a title and three words of details are rejected for the missing type |
| Validation.ExampleBlankTitle | simple_issue_creator/__init__.py:143-146 | a title of spaces is rejected as blank |
| Validation.ExampleTagOnly | simple_issue_creator/__init__.py:147-149 | the title `[tag]` is rejected as only a tag |
| Validation.ExampleTwoWords | simple_issue_creator/__init__.py:151-153 | two words of details are too few |
| Validation.ExampleValid | simple_issue_creator/__init__.py:133-155 | a chosen type, a plain title and three words of details pass every check |
| Retagging.UntaggedShape | simple_issue_creator/__init__.py:190-193 | a tagged title keeps a strictly shorter, already stripped rest, and an untagged title is kept verbatim |
| Retagging.Retag | simple_issue_creator/__init__.py:189-195 | the new title always starts with the chosen type's tag `[type] ` |
| Retagging.RetagKeepsUntagged | simple_issue_creator/__init__.py:191-195 | a title without a leading tag is kept in full, surrounding whitespace included, after the new tag |
| Retagging.RetagReplacesTag | simple_issue_creator/__init__.py:192-195 | a tag `[a]` is dropped up to its first `]`, and the stripped rest follows the new tag |
| Retagging.RetagSwap | simple_issue_creator/__init__.py:189-195 | switching from type a to type b swaps the tag and leaves a stripped rest alone |
| Retagging.RetagTwice | simple_issue_creator/__init__.py:189-195 | choosing a and then b leaves the same title as choosing b at once, for a title that is stripped or already tagged |
| Retagging.RetagQuestionToBug | simple_issue_creator/__init__.py:189-195 | "[Question] why" becomes "[Bug] why" when Bug is chosen |
| Retagging.RetagBareTitleRejected | simple_issue_creator/__init__.py:147-149 | when nothing but whitespace is kept of the old title, the retagged title is rejected as only a tag |
| Retagging.RetagEmptyTitle | simple_issue_creator/__init__.py:191-195 | an empty title becomes the bare tag `[type] `, which the validation rejects as only a tag |
| Posting.FixNewlinesRemovesAll | simple_issue_creator/__init__.py:171 | after the correction the query holds no `%5Cn` anywhere |
| Posting.FixNewlinesIdempotent | simple_issue_creator/__init__.py:171 | a second correction pass changes nothing |
| Posting.FixNewlinesAbsent | simple_issue_creator/__init__.py:171 | a query without `%5Cn` goes through the correction unchanged |
| Posting.FixNewlinesReversible | simple_issue_creator/__init__.py:171 | for a query without `%0D`, replacing `%0D` back by `%5Cn` recovers the encoder's output |
| Posting.IssueLinkShape | simple_issue_creator/__init__.py:167-171 | the link is the repository URL with `/issues/new?` (built at line 59), then a query without `%5Cn`. When the encoder's output holds no `%0D`, that query reads back as the encoder's output for the title and the Markdown body |
| Posting.CrashDetailsEnoughWords | simple_issue_creator/__init__.py:223-224 | whatever the traceback, the crash details have at least three words |
| Posting.CrashTitleChecks | simple_issue_creator/__init__.py:224 | for a non-empty class name without surrounding whitespace, the crash title `[Error] name` is left alone by `strip()` and looks like a bare tag exactly when the name ends with `]` |
| Posting.CrashTypeIsNoRadio | simple_issue_creator/__init__.py:197-207 | the two paths never share an issue type. Crash reports are typed "Error" (line 224), and every link the window opens, on any event, is for one of the three radio types, with the title and details as typed |
| Posting.CrashEmptyNameRejected | simple_issue_creator/__init__.py:224 | for an empty class name the crash title `[Error] ` is changed by `strip()` to `[Error]`, and the checks reject it as only a tag although the name does not end with `]` |
| Posting.CrashDraftExample | simple_issue_creator/__init__.py:224 | a `ValueError` crash is drafted with type "Error", title "[Error] ValueError" and details that open the fenced traceback block |
| Posting.ReportCrashOnlyOnYes | simple_issue_creator/__init__.py:218-224 | a crash is reported exactly when the answer is "Yes". The link is the new-issue URL followed by a query without `%5Cn`, which reads back as the encoder's output for the crash draft when that output holds no `%0D` |
| Posting.ReportCrashBypassesChecks | simple_issue_creator/__init__.py:218-224 | a class name ending in `]` gives a crash title that the checks reject as only a tag, whatever type were chosen, yet on "Yes" the crash is reported: crash reports skip the validation |
| Posting.StepTypeTwice | simple_issue_creator/__init__.py:189-195 | clicking a type sets a title tagged with it. Clicking a second type afterwards gives the same as clicking the second alone, for a title that is stripped or already tagged: tags do not pile up |
| Posting.StepPostFirstFailing | simple_issue_creator/__init__.py:197-207 | "Post Issue" either opens a link or shows an error. It opens exactly when none of the four reference checks fails, for the first chosen type and the title and details as typed. Otherwise it shows the message of the first check, in order, that fails |
| Posting.Run | simple_issue_creator/__init__.py:185-209 | the loop yields each event's step, one per event. It stops early only just after the close signal |
| Posting.RunOpensOnlyRadioTypes | simple_issue_creator/__init__.py:185-209 | no link the loop opens, over any run of events, carries the crash report's type "Error". Each is for one of the three radio types, with the title and details the window held at that event |
| Posting.RunClosesLastAndOpensOnlyValid | simple_issue_creator/__init__.py:185-209 | the loop closes at most once, as its last effect and only on the close signal, and every link it opens was for values the validation accepted |

## Left out

- The window, its layout (`build_layout`) and the error and yes/no popups. The checks return a reason, and `Validation.Message` holds each popup's text. The crash question's wording is not modelled; only its answer is a parameter.
- `webbrowser.open_new_tab`. The model yields the link, or an `OpenTab` effect, instead of opening it.
- `urllib.parse.urlencode`. The encoder is an uninterpreted function parameter, so the URL-decoding round trip is not modelled. Only the `%5Cn` correction and its inverse are.
- `platform.platform()` and `sys.version`. The platform string and the versions mapping are parameters. `make_markdown` also passes `python_version`, which the template never uses.
- The exception hook and `traceback.format_exception`. The class name and the formatted traceback are inputs of the crash draft.
- `main`, the random theme, the Python 2 branch, and the widget expansion for Python 3. These are presentation, except that the Python 2 branch (lines 10-17) also chooses which `urlencode` line 171 calls. That choice is absorbed by the uninterpreted encoder parameter.
- Whitespace.Strip: fixes whitespace to the six ASCII characters (space, tab, line feed, carriage return, form feed, vertical tab). Python's `str.strip()` also strips the ASCII separators `\x1c`-`\x1f`, next line, no-break space and the other Unicode whitespace characters.
- Whitespace.Split: uses the same six ASCII whitespace characters; Python's `str.split()` also splits at `\x1c`-`\x1f`, next line, no-break space and the other Unicode whitespace.
- Text.Find: returns the string's length instead of -1 when the character is absent. The code only calls `find(']')` after checking that `]` is in the title.
- Validation.ValidateFirstFailing: requires a flag for every issue type in the window's values. The window always holds one, and a missing key would raise `KeyError` in the source.
- Markdown.VersionLines: takes the versions mapping as a sequence of pairs in the dictionary's iteration order. Duplicate names, which a dictionary cannot hold, are allowed.
- Markdown.VersionsOneLinePerEntry: promises one line per entry only for names and versions without line feeds. `main` passes `sys.version`, which on GCC builds of CPython holds a line feed before `[GCC …]`, so its entry spans two lines (`Markdown.MultiLineVersionSplits`).
- Posting.Run: takes the window's values at each event as input. Writing the retagged title back into the window (`update`) is an effect, not a state change.

=== FILE: markdown.dfy ===
/** The Markdown text of an issue: the versions block built once by the
    reporter (`make_versions`) and the four-section body (`make_markdown`
    filling the `body` template). */
module Markdown {
  import opened Text

  /** The reporter's versions: component name and version string, in the
      order of the mapping they were given in. */
  type VersionInfo = seq<(string, string)>

  /** One line of the versions block: the name in backticks, then the version. */
  function VersionLine(name: string, version: string): string {
    "`" + name + "` : " + version
  }

  /** The lines of the versions block, one per entry, in mapping order. */
  function VersionLines(versions: VersionInfo): (lines: seq<string>)
    ensures |lines| == |versions|
    ensures forall i :: 0 <= i < |versions| ==> lines[i] == "`" + versions[i].0 + "` : " + versions[i].1
  {
    if |versions| == 0 then []
    else [VersionLine(versions[0].0, versions[0].1)] + VersionLines(versions[1..])
  }

  /** `make_versions`: the version lines joined by line feeds, with no
      trailing line feed; an empty mapping gives the empty string. */
  function MakeVersions(versions: VersionInfo): (r: string)
    ensures versions == [] <==> r == []
  {
    var lines := VersionLines(versions);
    assert |lines| > 0 ==> |lines[0]| > 0;
    Join('\n', lines)
  }

  /** No name or version spans several lines. */
  predicate SingleLineEntries(versions: VersionInfo) {
    forall i :: 0 <= i < |versions| ==> '\n' !in versions[i].0 && '\n' !in versions[i].1
  }

  /** Read back line by line, the versions block has exactly one line per
      entry, in mapping order, each of the form `` `name` : version ``. */
  lemma {:induction false} VersionsOneLinePerEntry(versions: VersionInfo)
    requires |versions| > 0
    requires SingleLineEntries(versions)
    ensures var lines := SplitOn(MakeVersions(versions), '\n');
      |lines| == |versions| &&
      forall i :: 0 <= i < |versions| ==> lines[i] == "`" + versions[i].0 + "` : " + versions[i].1
  {
    var lines := VersionLines(versions);
    forall k | 0 <= k < |lines|
      ensures '\n' !in lines[k]
    {
      assert lines[k] == "`" + versions[k].0 + "` : " + versions[k].1;
    }
    SplitOnJoin('\n', lines);
  }

  lemma {:induction false} GccVersionLine()
    ensures VersionLine("python", "3.8.10 \n[GCC 9.4.0]") == "`python` : 3.8.10 " + ['\n'] + "[GCC 9.4.0]"
  {
  }

  lemma {:induction false} GccVersionHead()
    ensures '\n' !in "`python` : 3.8.10 "
  {
    assert forall k :: 0 <= k < |"`python` : 3.8.10 "| ==> "`python` : 3.8.10 "[k] != '\n';
  }

  lemma {:induction false} GccVersionTail()
    ensures '\n' !in "[GCC 9.4.0]"
  {
    assert forall k :: 0 <= k < |"[GCC 9.4.0]"| ==> "[GCC 9.4.0]"[k] != '\n';
  }

  /** A version string that spans lines breaks the block's line structure:
      an interpreter version of the form `sys.version` takes on GCC builds,
      with a line feed before the compiler, reads back as two lines for its
      one entry. */
  lemma {:induction false} MultiLineVersionSplits()
    ensures var lines := SplitOn(MakeVersions([("python", "3.8.10 \n[GCC 9.4.0]")]), '\n');
      |lines| == 2 && lines == ["`python` : 3.8.10 ", "[GCC 9.4.0]"]
  {
    var a, b := "`python` : 3.8.10 ", "[GCC 9.4.0]";
    var versions := [("python", "3.8.10 \n[GCC 9.4.0]")];
    var line := a + ['\n'] + b;
    assert VersionLine("python", "3.8.10 \n[GCC 9.4.0]") == line && '\n' !in a && '\n' !in b by {
      GccVersionLine();
      GccVersionHead();
      GccVersionTail();
    }
    assert versions[1..] == [];
    assert MakeVersions(versions) == line by {
      assert VersionLines(versions) == [line];
    }
    SplitOnAppend(a, '\n', b);
    SplitOnSingle(a, '\n');
    SplitOnSingle(b, '\n');
  }

  const Rule := "----------------------------------------"

  /** Text that starts and ends with a line feed and holds the given lines
      in between. */
  function Around(lines: seq<string>): string {
    "\n" + Join('\n', lines) + "\n"
  }

  /** The fixed text of the `body` template between its four fields, line by line. */
  const TypeHeaderLines: seq<string> := ["### Type of Issue ", ""]
  const PlatformHeaderLines: seq<string> := ["", Rule, "### platform", ""]
  const VersionsHeaderLines: seq<string> := ["", Rule, "## Versions"]
  const DescriptionHeaderLines: seq<string> := ["", Rule, "#### Detailed Description", ""]

  /** The template's last line: the indentation before its closing quotes. */
  const Indent := "            "

  /** The `body` template filled in with its four fields. */
  function Body(issueType: string, platform: string, versions: string, description: string): string {
    Around(TypeHeaderLines) + issueType + Around(PlatformHeaderLines) + platform
      + Around(VersionsHeaderLines) + versions + Around(DescriptionHeaderLines) + description + "\n" + Indent
  }

  /** `make_markdown`: the body for an issue type and a description, with the
      host's platform string and the reporter's versions block. */
  function MakeMarkdown(versions: VersionInfo, platform: string, issueType: string, description: string): string {
    Body(issueType, platform, MakeVersions(versions), description)
  }

  /** No line of the fixed template text holds a line feed. */
  predicate SingleLines(lines: seq<string>) {
    forall k :: 0 <= k < |lines| ==> '\n' !in lines[k]
  }

  lemma {:induction false} RuleIsOneLine()
    ensures '\n' !in Rule
  {
    assert forall k :: 0 <= k < |Rule| ==> Rule[k] == '-';
  }

  lemma {:induction false} HeaderLinesAreLines()
    ensures SingleLines(TypeHeaderLines) && SingleLines(PlatformHeaderLines)
    ensures SingleLines(VersionsHeaderLines) && SingleLines(DescriptionHeaderLines)
  {
    RuleIsOneLine();
    assert SingleLines(TypeHeaderLines) by {
      assert '\n' !in "### Type of Issue ";
    }
    assert SingleLines(PlatformHeaderLines) by {
      assert '\n' !in "### platform";
    }
    assert SingleLines(VersionsHeaderLines) by {
      assert '\n' !in "## Versions";
    }
    assert SingleLines(DescriptionHeaderLines) by {
      assert '\n' !in "#### Detailed Description";
    }
  }

  /** Splitting at a line-feed-delimited middle part: the lines before, the
      lines of the middle, the lines after. */
  lemma {:induction false} SplitOnAround(x: string, lines: seq<string>, y: string)
    requires |lines| >= 1
    requires SingleLines(lines)
    ensures SplitOn(x + Around(lines) + y, '\n') == SplitOn(x, '\n') + lines + SplitOn(y, '\n')
  {
    var mid := Join('\n', lines);
    var tail := mid + ['\n'] + y;
    assert x + Around(lines) + y == x + ['\n'] + tail;
    assert SplitOn(tail, '\n') == lines + SplitOn(y, '\n') by {
      SplitOnAppend(mid, '\n', y);
      SplitOnJoin('\n', lines);
    }
    SplitOnAppend(x, '\n', tail);
  }

  /** The body, read line by line: the fixed lines of the template in their
      order, with the lines of each field in its place. */
  lemma {:induction false} BodyLines(issueType: string, platform: string, versions: string, description: string)
    ensures SplitOn(Body(issueType, platform, versions, description), '\n')
      == [""] + TypeHeaderLines + SplitOn(issueType, '\n')
      + PlatformHeaderLines + SplitOn(platform, '\n')
      + VersionsHeaderLines + SplitOn(versions, '\n')
      + DescriptionHeaderLines + SplitOn(description, '\n')
      + [Indent]
  {
    HeaderLinesAreLines();
    var x1 := Around(TypeHeaderLines) + issueType;
    var x2 := x1 + Around(PlatformHeaderLines) + platform;
    var x3 := x2 + Around(VersionsHeaderLines) + versions;
    var x4 := x3 + Around(DescriptionHeaderLines) + description;
    assert SplitOn(x1, '\n') == [""] + TypeHeaderLines + SplitOn(issueType, '\n') by {
      SplitOnSingle("", '\n');
      assert x1 == "" + Around(TypeHeaderLines) + issueType;
      SplitOnAround("", TypeHeaderLines, issueType);
    }
    SplitOnAround(x1, PlatformHeaderLines, platform);
    SplitOnAround(x2, VersionsHeaderLines, versions);
    SplitOnAround(x3, DescriptionHeaderLines, description);
    assert SplitOn(x4 + "\n" + Indent, '\n') == SplitOn(x4, '\n') + [Indent] by {
      SplitOnSingle(Indent, '\n');
      SplitOnAppend(x4, '\n', Indent);
    }
  }
}

=== FILE: posting.dfy ===
/** Posting an issue: the reporter built from a repository URL and a
    versions mapping, the new-issue link `post_issue` opens, the crash
    report `error` drafts, and one turn of the `open_reporter` event loop.

    The URL encoder (`urlencode` of the title and body), the platform
    string, the formatted traceback and the user's answers are parameters:
    they come from the host and the GUI, not from this code. */
module Posting {
  import opened Text
  import opened Whitespace
  import opened Markdown
  import opened Validation
  import opened Retagging

  /** The issue a link is opened for: its type, title and details. */
  datatype Draft = Draft(issueType: string, title: string, details: string)

  /** What an `IssueReporter` keeps: the versions block, rendered once, and
      the new-issue URL of the repository. */
  datatype Reporter = Reporter(versions: string, issuesUrl: string)

  /** `IssueReporter(base_url, versions)`. */
  function NewReporter(baseUrl: string, versions: VersionInfo): Reporter {
    Reporter(MakeVersions(versions), baseUrl + "/issues/new?")
  }

  /** The query string the URL encoder makes of a title and a body. */
  type Encoder = (string, string) -> string

  /** What the encoder writes for a backslash followed by `n`, and for a
      carriage return. */
  const EscapedNewline := "%5Cn"
  const EncodedReturn := "%0D"

  /** The correction `post_issue` applies to the encoder's output. */
  function FixNewlines(q: string): string {
    Replace(q, EscapedNewline, EncodedReturn)
  }

  /** The inverse of the correction, for reading a corrected query back. */
  function UnfixNewlines(q: string): string {
    Replace(q, EncodedReturn, EscapedNewline)
  }

  /** `post_issue`: the link opened in the browser for a draft. */
  function IssueLink(rep: Reporter, platform: string, encode: Encoder, d: Draft): string {
    rep.issuesUrl + FixNewlines(encode(d.title, Body(d.issueType, platform, rep.versions, d.details)))
  }

  /** An occurrence in `s[1..]` is an occurrence in `s`, one place on. */
  lemma {:induction false} FreeTail(s: string, pat: string)
    requires s != [] && Free(s, pat)
    ensures Free(s[1..], pat)
  {
    forall i | OccursAt(s[1..], pat, i)
      ensures false
    {
      assert s[1..][i..i + |pat|] == s[i + 1..i + 1 + |pat|];
      assert OccursAt(s, pat, i + 1);
    }
  }

  lemma {:induction false} FreeDrop(s: string, pat: string, n: nat)
    requires n <= |s| && Free(s, pat)
    ensures Free(s[n..], pat)
    decreases n
  {
    if n > 0 {
      FreeDrop(s, pat, n - 1);
      FreeTail(s[n - 1..], pat);
      assert s[n - 1..][1..] == s[n..];
    }
  }

  /** Replacing in a text without the pattern changes nothing. */
  lemma {:induction false} ReplaceAbsent(s: string, pat: string, rep: string)
    requires pat != [] && Free(s, pat)
    ensures Replace(s, pat, rep) == s
    decreases |s|
  {
    if |s| > 0 {
      assert !OccursAt(s, pat, 0);
      assert !StartsWith(s, pat);
      FreeTail(s, pat);
      ReplaceAbsent(s[1..], pat, rep);
      assert s == [s[0]] + s[1..];
    }
  }

  /** A `%`-free text at the start of the corrected query was at the start
      of the encoder's output: the correction only writes text that starts
      with `%`. */
  lemma {:induction false} FixNewlinesPrefix(q: string, w: string)
    requires '%' !in w
    ensures StartsWith(FixNewlines(q), w) ==> StartsWith(q, w)
    decreases |w|
  {
    var r := FixNewlines(q);
    if |w| > 0 && |q| > 0 {
      if StartsWith(q, EscapedNewline) {
        assert r == EncodedReturn + FixNewlines(q[4..]);
        assert r[0] == '%' && w[0] != '%';
        assert |w| <= |r| ==> r[..|w|][0] == r[0];
      } else {
        var r' := FixNewlines(q[1..]);
        assert r == [q[0]] + r';
        assert '%' !in w[1..];
        FixNewlinesPrefix(q[1..], w[1..]);
        if StartsWith(r, w) {
          assert r[..|w|] == [q[0]] + r'[..|w| - 1];
          assert w == [w[0]] + w[1..];
          assert q[..|w|] == [q[0]] + q[1..][..|w| - 1];
        }
      }
    }
  }

  /** The encoded carriage return cannot begin the escaped newline, so
      putting it in front of a text without one creates none. */
  lemma {:induction false} FreeAfterReturn(t: string)
    requires Free(t, EscapedNewline)
    ensures Free(EncodedReturn + t, EscapedNewline)
  {
    var r := EncodedReturn + t;
    forall i | 0 <= i <= |r| - |EscapedNewline|
      ensures !OccursAt(r, EscapedNewline, i)
    {
      if i < 3 {
        // The text there is "%0D", where no `%` is followed by `5`.
        assert r[0] == '%' && r[1] == '0' && r[2] == 'D';
        assert r[i..i + 4][0] == r[i] && r[i..i + 4][1] == r[i + 1];
      } else {
        assert r[i..i + 4] == t[i - 3..i - 3 + 4];
        assert !OccursAt(t, EscapedNewline, i - 3);
      }
    }
  }

  /** A character kept by the correction, in front of a corrected text
      without the escaped newline, creates none. */
  lemma {:induction false} FreeAfterKept(q: string)
    requires q != [] && !StartsWith(q, EscapedNewline)
    requires Free(FixNewlines(q[1..]), EscapedNewline)
    ensures Free(FixNewlines(q), EscapedNewline)
  {
    var r := FixNewlines(q);
    var r' := FixNewlines(q[1..]);
    assert r == [q[0]] + r';
    FixNewlinesPrefix(q[1..], "5Cn");
    var c := q[0];
    forall i | 0 <= i <= |r| - |EscapedNewline|
      ensures !OccursAt(r, EscapedNewline, i)
    {
      if i == 0 {
        assert OccursAt(r, EscapedNewline, 0) ==> c == '%' && StartsWith(r', "5Cn") by {
          assert r[0..4][0] == r[0] && r'[..3] == r[1..4];
        }
        assert c == '%' && StartsWith(q[1..], "5Cn") ==> StartsWith(q, EscapedNewline) by {
          if |q| >= 4 {
            assert q[..4] == [q[0]] + q[1..][..3];
          }
        }
      } else {
        assert r[i..i + 4] == r'[i - 1..i - 1 + 4];
        assert !OccursAt(r', EscapedNewline, i - 1);
      }
    }
  }

  /** The corrected query never holds the escaped newline. */
  lemma {:induction false} FixNewlinesRemovesAll(q: string)
    ensures Free(FixNewlines(q), EscapedNewline)
    decreases |q|
  {
    if |q| > 0 {
      if StartsWith(q, EscapedNewline) {
        FixNewlinesRemovesAll(q[4..]);
        FreeAfterReturn(FixNewlines(q[4..]));
        assert FixNewlines(q) == EncodedReturn + FixNewlines(q[4..]);
      } else {
        FixNewlinesRemovesAll(q[1..]);
        FreeAfterKept(q);
      }
    }
  }

  /** A second correction pass changes nothing. */
  lemma {:induction false} FixNewlinesIdempotent(q: string)
    ensures FixNewlines(FixNewlines(q)) == FixNewlines(q)
  {
    FixNewlinesRemovesAll(q);
    ReplaceAbsent(FixNewlines(q), EscapedNewline, EncodedReturn);
  }

  /** An encoder output without the escaped newline goes through unchanged. */
  lemma {:induction false} FixNewlinesAbsent(q: string)
    requires Free(q, EscapedNewline)
    ensures FixNewlines(q) == q
  {
    ReplaceAbsent(q, EscapedNewline, EncodedReturn);
  }

  /** An encoder output that neither starts with the escaped newline nor
      holds an encoded carriage return does not start with one once
      corrected. */
  lemma {:induction false} FixNewlinesNoReturnAhead(q: string)
    requires q != [] && !StartsWith(q, EscapedNewline) && Free(q, EncodedReturn)
    ensures !StartsWith(FixNewlines(q), EncodedReturn)
  {
    var r := FixNewlines(q);
    var r' := FixNewlines(q[1..]);
    assert r == [q[0]] + r';
    assert !OccursAt(q, EncodedReturn, 0);
    FixNewlinesPrefix(q[1..], "0D");
    assert StartsWith(r, EncodedReturn) ==> q[0] == '%' && StartsWith(r', "0D") by {
      assert |r| >= 3 ==> r[..3][0] == r[0] && r'[..2] == r[1..3];
    }
    assert q[0] == '%' && StartsWith(q[1..], "0D") ==> OccursAt(q, EncodedReturn, 0) by {
      if |q| >= 3 {
        assert q[..3] == [q[0]] + q[1..][..2];
      }
    }
  }

  /** The correction loses nothing: when the encoder's output holds no
      encoded carriage return, undoing the correction gives it back. */
  lemma {:induction false} FixNewlinesReversible(q: string)
    requires Free(q, EncodedReturn)
    ensures UnfixNewlines(FixNewlines(q)) == q
    decreases |q|
  {
    if |q| > 0 {
      var r := FixNewlines(q);
      if StartsWith(q, EscapedNewline) {
        var rest := q[4..];
        FreeDrop(q, EncodedReturn, 4);
        FixNewlinesReversible(rest);
        assert r == EncodedReturn + FixNewlines(rest);
        assert StartsWith(r, EncodedReturn) by {
          assert r[..3] == EncodedReturn;
        }
        assert r[3..] == FixNewlines(rest);
        assert UnfixNewlines(r) == EscapedNewline + UnfixNewlines(FixNewlines(rest));
        assert q == EscapedNewline + rest by {
          assert q[..4] == EscapedNewline;
        }
      } else {
        var r' := FixNewlines(q[1..]);
        FreeTail(q, EncodedReturn);
        FixNewlinesReversible(q[1..]);
        assert r == [q[0]] + r';
        FixNewlinesNoReturnAhead(q);
        assert r[1..] == r';
        assert UnfixNewlines(r) == [q[0]] + UnfixNewlines(r');
        assert q == [q[0]] + q[1..];
      }
    }
  }

  /** The link a reporter opens: the repository's new-issue URL, then a query
      without the escaped newline that reads back as the encoder's output
      for the draft's title and its Markdown body. */
  lemma {:induction false} IssueLinkShape(baseUrl: string, versions: VersionInfo, platform: string, encode: Encoder, d: Draft)
    ensures var link := IssueLink(NewReporter(baseUrl, versions), platform, encode, d);
      var prefix := baseUrl + "/issues/new?";
      var q := encode(d.title, MakeMarkdown(versions, platform, d.issueType, d.details));
      StartsWith(link, prefix)
      && Free(link[|prefix|..], EscapedNewline)
      && (Free(q, EncodedReturn) ==> UnfixNewlines(link[|prefix|..]) == q)
  {
    var prefix := baseUrl + "/issues/new?";
    var q := encode(d.title, MakeMarkdown(versions, platform, d.issueType, d.details));
    var link := IssueLink(NewReporter(baseUrl, versions), platform, encode, d);
    assert link == prefix + FixNewlines(q);
    assert link[..|prefix|] == prefix;
    assert link[|prefix|..] == FixNewlines(q);
    FixNewlinesRemovesAll(q);
    if Free(q, EncodedReturn) {
      FixNewlinesReversible(q);
    }
  }

  /** The fenced block a traceback is reported in. */
  const TraceHead := "traceback:\n```pytb\n"
  const TraceTail := "\n```"

  /** The draft `error` posts for an uncaught exception of class
      `className` with formatted traceback `trace`. */
  function CrashDraft(className: string, trace: string): Draft {
    Draft("Error", "[Error] " + className, TraceHead + trace + TraceTail)
  }


  /** Whatever the traceback, the crash details have at least three words:
      `traceback:`, the opening fence and the closing fence. */
  lemma {:induction false} CrashDetailsEnoughWords(className: string, trace: string)
    ensures WordCount(CrashDraft(className, trace).details) >= 3
    ensures |Split(CrashDraft(className, trace).details)| >= 3
  {
    var s := CrashDraft(className, trace).details;
    var n := |s|;
    assert n == 19 + |trace| + 4;
    assert s[0] == 't' && s[10] == '\n' && s[11] == '`';
    assert s[n - 4] == '\n' && s[n - 3] == '`';
    assert IsWordStart(s, 0) && IsWordStart(s, 11) && IsWordStart(s, n - 3);
    CountStartsAtLeast(s, 0, 0);
    CountStartsAtLeast(s, 1, 11);
    CountStartsAtLeast(s, 12, n - 3);
    SplitCount(s);
  }

  /** For a non-empty class name without surrounding whitespace the crash
      title is left alone by `strip()` and is taken for a bare tag exactly
      when the class name ends with `]`. */
  lemma {:induction false} CrashTitleChecks(className: string, trace: string)
    requires className != [] && Strip(className) == className
    ensures var t := CrashDraft(className, trace).title;
      Strip(t) == t && (TagOnly(t) <==> className[|className| - 1] == ']')
  {
    var t := CrashDraft(className, trace).title;
    assert t[0] == '[';
    assert t[|t| - 1] == className[|className| - 1];
    StripTrimmed(t);
    TagOnlyBracketed(t);
  }

  /** An exception class with an empty name (legal in Python) gives the
      crash title `[Error] `, which `strip()` does change, and which the
      checks reject as only a tag although the name does not end with `]`. */
  lemma {:induction false} CrashEmptyNameRejected(trace: string)
    ensures var d := CrashDraft("", trace);
      Strip(d.title) == "[Error]" && Strip(d.title) != d.title
      && Validate(Values(Choose("Bug"), d.title, d.details)) == Invalid(OnlyTag)
  {
    var d := CrashDraft("", trace);
    assert d.title == "[Error]" + " ";
    assert AllSpace(" ");
    StripTrimmed("[Error]");
    StripBeforeSpace("[Error]", " ");
    TagOnlyBracketed("[Error]");
  }

  /** Worked example: a `ValueError`. */
  lemma {:induction false} CrashDraftExample(trace: string)
    ensures CrashDraft("ValueError", trace).title == "[Error] ValueError"
    ensures CrashDraft("ValueError", trace).issueType == "Error"
    ensures StartsWith(CrashDraft("ValueError", trace).details, "traceback:\n```pytb\n")
  {
    var d := CrashDraft("ValueError", trace).details;
    assert d[..|TraceHead|] == TraceHead;
  }

  /** `error`: the link opened for a crash, when the user answers "Yes" to
      the question whether to report it, and none otherwise. */
  function ReportCrash(rep: Reporter, platform: string, encode: Encoder, answer: string, className: string, trace: string): (r: Option<string>)
  {
    if answer == "Yes" then Some(IssueLink(rep, platform, encode, CrashDraft(className, trace))) else None
  }

  /** A crash is reported exactly on "Yes". The link is the reporter's
      new-issue URL followed by a query without the escaped newline, which
      reads back as the encoder's output for the crash title and the body
      of the traceback block whenever that output holds no encoded
      carriage return. */
  lemma {:induction false} ReportCrashOnlyOnYes(rep: Reporter, platform: string, encode: Encoder, answer: string, className: string, trace: string)
    ensures var r := ReportCrash(rep, platform, encode, answer, className, trace);
      var q := encode("[Error] " + className, Body("Error", platform, rep.versions, TraceHead + trace + TraceTail));
      (r.Some? <==> answer == "Yes")
      && (r.Some? ==>
            StartsWith(r.value, rep.issuesUrl)
            && Free(r.value[|rep.issuesUrl|..], EscapedNewline)
            && (Free(q, EncodedReturn) ==> UnfixNewlines(r.value[|rep.issuesUrl|..]) == q))
  {
    var q := encode("[Error] " + className, Body("Error", platform, rep.versions, TraceHead + trace + TraceTail));
    if answer == "Yes" {
      var link := ReportCrash(rep, platform, encode, answer, className, trace).value;
      assert link == rep.issuesUrl + FixNewlines(q);
      assert link[..|rep.issuesUrl|] == rep.issuesUrl;
      assert link[|rep.issuesUrl|..] == FixNewlines(q);
      FixNewlinesRemovesAll(q);
      if Free(q, EncodedReturn) {
        FixNewlinesReversible(q);
      }
    }
  }

  /** A crash is reported without the validation: a class name ending in
      `]` gives a crash title that the checks would reject as only a tag,
      whatever issue type were chosen, and on "Yes" it is reported all the
      same. */
  lemma {:induction false} ReportCrashBypassesChecks(rep: Reporter, platform: string, encode: Encoder, radios: map<string, bool>, className: string, trace: string)
    requires HasRadios(radios) && SelectedType(radios).Some?
    requires className != [] && Strip(className) == className && className[|className| - 1] == ']'
    ensures ReportCrash(rep, platform, encode, "Yes", className, trace).Some?
    ensures var d := CrashDraft(className, trace);
      Validate(Values(radios, d.title, d.details)) == Invalid(OnlyTag)
  {
    var d := CrashDraft(className, trace);
    CrashTitleChecks(className, trace);
    assert |Strip(d.title)| != 0;
  }

  /** What the window delivers: its close signal, or the key of the
      element that was clicked. */
  datatype Event = WindowClosed | Clicked(key: string)

  /** What one turn of the event loop does. */
  datatype Effect =
    | Close
    | SetTitle(title: string)
    | ShowError(message: string)
    | OpenTab(url: string)
    | Ignore

  /** The key of the submit button. */
  const PostKey := "Post Issue"

  /** One turn of the `open_reporter` loop, for an event and the window's
      values read with it. */
  function Step(rep: Reporter, platform: string, encode: Encoder, event: Event, v: Values): Effect
    requires HasRadios(v.radios)
  {
    match event
    case WindowClosed => Close
    case Clicked(key) =>
      if key in IssueTypes then SetTitle(Retag(v.title, key))
      else if key == PostKey then
        match Validate(v)
        case Invalid(reason) => ShowError(Message(reason))
        case Valid =>
          assert SelectedType(v.radios).Some?;
          OpenTab(IssueLink(rep, platform, encode, Draft(SelectedType(v.radios).value, v.title, v.details)))
      else Ignore
  }

  /** The two paths never share an issue type: crash reports are typed
      "Error", while every link the window opens, on any event, is for one
      of the three radio types with the title and details as typed. */
  lemma {:induction false} CrashTypeIsNoRadio(rep: Reporter, platform: string, encode: Encoder, ev: Event, v: Values, className: string, trace: string)
    requires HasRadios(v.radios)
    ensures CrashDraft(className, trace).issueType !in IssueTypes
    ensures var e := Step(rep, platform, encode, ev, v);
      e.OpenTab? ==>
        exists t :: t in IssueTypes && t != CrashDraft(className, trace).issueType
                    && e.url == IssueLink(rep, platform, encode, Draft(t, v.title, v.details))
  {
    var e := Step(rep, platform, encode, ev, v);
    if e.OpenTab? {
      var t := SelectedType(v.radios).value;
      assert t in IssueTypes && e.url == IssueLink(rep, platform, encode, Draft(t, v.title, v.details));
    }
  }

  /** "Post Issue", stated against the reference checks: it opens a link
      exactly when none of the checks fails, and then for the first chosen
      type and the title and details as typed; otherwise it shows the
      message of the first check, in order, that fails. */
  lemma {:induction false} StepPostFirstFailing(rep: Reporter, platform: string, encode: Encoder, v: Values)
    requires HasRadios(v.radios)
    ensures var e := Step(rep, platform, encode, Clicked(PostKey), v);
      (e.OpenTab? || e.ShowError?)
      && (e.OpenTab? <==> forall i :: 0 <= i < |Checks| ==> !Fails(Checks[i], v))
      && (forall i :: 0 <= i < |Checks| && Fails(Checks[i], v) && (forall j :: 0 <= j < i ==> !Fails(Checks[j], v)) ==>
            e == ShowError(Message(Checks[i])))
      && (e.OpenTab? ==>
            FirstOfThree(v.radios).Some?
            && e.url == IssueLink(rep, platform, encode, Draft(FirstOfThree(v.radios).value, v.title, v.details)))
  {
    assert PostKey !in IssueTypes;
    ValidateFirstFailing(v);
  }

  /** Clicking one issue type and then another leaves the title that
      clicking the second alone gives, for a title that is stripped or
      already tagged: the tags do not pile up. */
  lemma {:induction false} StepTypeTwice(rep: Reporter, platform: string, encode: Encoder, t: string, u: string, v: Values)
    requires HasRadios(v.radios) && t in IssueTypes && u in IssueTypes
    requires HasTag(v.title) || Strip(v.title) == v.title
    ensures var e := Step(rep, platform, encode, Clicked(t), v);
      e.SetTitle?
      && StartsWith(e.title, Tag(t))
      && Step(rep, platform, encode, Clicked(u), v.(title := e.title)) == Step(rep, platform, encode, Clicked(u), v)
  {
    IssueTypesHaveNoBracket();
    var k :| 0 <= k < |IssueTypes| && IssueTypes[k] == t;
    assert ']' !in t;
    RetagTwice(v.title, t, u);
  }

  /** The effects of the loop over a run of events, each with the window's
      values read at that event; the loop stops at the close signal. */
  function Run(rep: Reporter, platform: string, encode: Encoder, events: seq<(Event, Values)>): (effects: seq<Effect>)
    requires forall i :: 0 <= i < |events| ==> HasRadios(events[i].1.radios)
    ensures |effects| <= |events|
    ensures |effects| == |events| || (0 < |effects| && events[|effects| - 1].0 == WindowClosed)
    ensures forall i :: 0 <= i < |effects| ==> effects[i] == Step(rep, platform, encode, events[i].0, events[i].1)
  {
    if |events| == 0 then []
    else
      var e := Step(rep, platform, encode, events[0].0, events[0].1);
      if e == Close then
        assert events[0].0 == WindowClosed;
        [Close]
      else
        var tail := events[1..];
        assert forall i :: 0 <= i < |tail| ==> tail[i] == events[i + 1];
        [e] + Run(rep, platform, encode, tail)
  }

  /** No link the loop opens, over any run of events, carries the crash
      report's type: each is for one of the three radio types, with the
      title and details the window held at that event. */
  lemma {:induction false} RunOpensOnlyRadioTypes(rep: Reporter, platform: string, encode: Encoder, events: seq<(Event, Values)>, className: string, trace: string)
    requires forall i :: 0 <= i < |events| ==> HasRadios(events[i].1.radios)
    ensures var effects := Run(rep, platform, encode, events);
      forall i :: 0 <= i < |effects| && effects[i].OpenTab? ==>
        exists t :: t in IssueTypes && t != CrashDraft(className, trace).issueType
                    && effects[i].url == IssueLink(rep, platform, encode, Draft(t, events[i].1.title, events[i].1.details))
  {
    var effects := Run(rep, platform, encode, events);
    forall i | 0 <= i < |effects| && effects[i].OpenTab?
      ensures exists t :: t in IssueTypes && t != CrashDraft(className, trace).issueType
                          && effects[i].url == IssueLink(rep, platform, encode, Draft(t, events[i].1.title, events[i].1.details))
    {
      CrashTypeIsNoRadio(rep, platform, encode, events[i].0, events[i].1, className, trace);
    }
  }

  /** The loop closes at most once, as its last effect, and only on the close
      signal; every link it opens was for values the validation accepted. */
  lemma {:induction false} RunClosesLastAndOpensOnlyValid(rep: Reporter, platform: string, encode: Encoder, events: seq<(Event, Values)>)
    requires forall i :: 0 <= i < |events| ==> HasRadios(events[i].1.radios)
    ensures var effects := Run(rep, platform, encode, events);
      (forall i :: 0 <= i < |effects| - 1 ==> effects[i] != Close)
      && (forall i :: 0 <= i < |effects| && effects[i] == Close ==> events[i].0 == WindowClosed)
      && (forall i :: 0 <= i < |effects| && effects[i].OpenTab? ==> events[i].0 == Clicked(PostKey) && Validate(events[i].1) == Valid)
    decreases |events|
  {
    var effects := Run(rep, platform, encode, events);
    if |events| > 0 {
      var e := effects[0];
      if e != Close {
        var tail := events[1..];
        assert forall i :: 0 <= i < |tail| ==> tail[i] == events[i + 1];
        RunClosesLastAndOpensOnlyValid(rep, platform, encode, tail);
        var rest := Run(rep, platform, encode, tail);
        assert effects == [e] + rest;
        forall i | 0 <= i < |effects| - 1
          ensures effects[i] != Close
        {
          if i > 0 {
            assert effects[i] == rest[i - 1];
          }
        }
      }
      forall i | 0 <= i < |effects|
        ensures effects[i] == Close ==> events[i].0 == WindowClosed
        ensures effects[i].OpenTab? ==> events[i].0 == Clicked(PostKey) && Validate(events[i].1) == Valid
      {
        var ev := events[i].0;
        if ev.Clicked? && ev.key !in IssueTypes && ev.key == PostKey {
          assert effects[i].OpenTab? ==> Validate(events[i].1) == Valid;
        }
      }
    }
  }
}

=== FILE: retag.dfy ===
/** The title update made when an issue-type radio button is clicked
    (the event handler inside `open_reporter`): any leading `[...]` tag is
    replaced by the tag of the chosen type. */
module Retagging {
  import opened Whitespace
  import opened Text
  import opened Validation

  /** The prefix a title gets when issue type `t` is chosen. */
  function Tag(t: string): string {
    "[" + t + "] "
  }

  /** The title starts with `[` and holds a `]` somewhere: it is taken to
      begin with a tag. */
  predicate HasTag(title: string) {
    StartsWith(title, "[") && ']' in title
  }

  /** What is kept of the title: everything after its first `]`, stripped,
      when the title begins with a tag, and the whole title otherwise. */
  function Untagged(title: string): string {
    if |title| != 0 && HasTag(title) then Strip(title[Find(title, ']') + 1..]) else title
  }

  /** A tagged title keeps a shorter rest, already stripped; an untagged
      title is kept whole. */
  lemma {:induction false} UntaggedShape(title: string)
    ensures HasTag(title) ==> Strip(Untagged(title)) == Untagged(title) && |Untagged(title)| < |title|
    ensures !HasTag(title) ==> Untagged(title) == title
  {
    if HasTag(title) {
      StripIdempotent(title[Find(title, ']') + 1..]);
    }
  }

  /** The new title after choosing issue type `t`: its tag, then what is
      kept of the old title. */
  function Retag(title: string, t: string): (r: string)
    ensures StartsWith(r, Tag(t))
  {
    assert (Tag(t) + Untagged(title))[..|Tag(t)|] == Tag(t);
    Tag(t) + Untagged(title)
  }

  /** A title without a leading tag is kept verbatim, surrounding
      whitespace included. */
  lemma {:induction false} RetagKeepsUntagged(title: string, t: string)
    requires !HasTag(title)
    ensures Retag(title, t) == Tag(t) + title
  {
  }

  /** A tag `[a]` whose text has no `]` is dropped up to its `]`, and the
      rest of the title is stripped. */
  lemma {:induction false} RetagReplacesTag(a: string, rest: string, t: string)
    requires ']' !in a
    ensures Retag("[" + a + "]" + rest, t) == Tag(t) + Strip(rest)
  {
    var title := "[" + a + "]" + rest;
    assert title[..1] == "[";
    assert title[|a| + 1] == ']';
    assert ']' !in title[..|a| + 1] by {
      assert title[..|a| + 1] == "[" + a;
    }
    assert Find(title, ']') == |a| + 1;
    assert title[|a| + 2..] == rest;
  }

  /** Switching from type `a` to type `b` swaps the tag and leaves the
      stripped rest of the title alone. */
  lemma {:induction false} RetagSwap(a: string, r: string, b: string)
    requires ']' !in a && Strip(r) == r
    ensures Retag(Tag(a) + r, b) == Tag(b) + r
  {
    var rest := [' '] + r;
    assert Tag(a) + r == "[" + a + "]" + rest;
    assert Strip(rest) == r by {
      assert AllSpace([' ']);
      StripAfterSpace([' '], r);
    }
    assert Retag("[" + a + "]" + rest, b) == Tag(b) + Strip(rest) by {
      RetagReplacesTag(a, rest, b);
    }
  }

  /** Choosing type `a` and then type `b` leaves the same title as choosing
      `b` straight away, for a title that is stripped or already tagged. */
  lemma {:induction false} RetagTwice(title: string, a: string, b: string)
    requires ']' !in a
    requires HasTag(title) || Strip(title) == title
    ensures Retag(Retag(title, a), b) == Retag(title, b)
  {
    UntaggedShape(title);
    RetagSwap(a, Untagged(title), b);
  }

  /** No issue type's name holds a `]`, so every retag above applies to
      the tags the reporter writes. */
  lemma {:induction false} IssueTypesHaveNoBracket()
    ensures forall k :: 0 <= k < |IssueTypes| ==> ']' !in IssueTypes[k]
  {
    assert ']' !in "Question" && ']' !in "Bug" && ']' !in "Enhancement";
  }

  lemma {:induction false} TagLiterals()
    ensures "[Question] why" == Tag("Question") + "why"
    ensures Tag("Bug") + "why" == "[Bug] why"
  {
  }

  /** Worked example: from Question to Bug. */
  lemma {:induction false} RetagQuestionToBug()
    ensures Retag("[Question] why", "Bug") == "[Bug] why"
  {
    TagLiterals();
    StripTrimmed("why");
    RetagSwap("Question", "why", "Bug");
  }

  /** When nothing but whitespace is kept of the title (an empty title, a
      title that was a bare tag), the retagged title is a bare tag itself,
      and the validation then rejects it as only a tag. */
  lemma {:induction false} RetagBareTitleRejected(radios: map<string, bool>, title: string, t: string, details: string)
    requires HasRadios(radios) && SelectedType(radios).Some?
    requires AllSpace(Untagged(title))
    ensures Validate(Values(radios, Retag(title, t), details)) == Invalid(OnlyTag)
  {
    var x := "[" + t + "]";
    var w := [' '] + Untagged(title);
    assert Retag(title, t) == x + w;
    assert AllSpace(w) by {
      forall k | 0 <= k < |w|
        ensures IsSpace(w[k])
      {
        if k > 0 {
          assert w[k] == Untagged(title)[k - 1];
        }
      }
    }
    StripBeforeSpace(x, w);
    StripTrimmed(x);
    TagOnlyBracketed(x);
  }

  /** The empty title becomes the bare tag, which the validation rejects. */
  lemma {:induction false} RetagEmptyTitle(radios: map<string, bool>, t: string, details: string)
    requires HasRadios(radios) && SelectedType(radios).Some?
    ensures Retag("", t) == "[" + t + "] "
    ensures Validate(Values(radios, Retag("", t), details)) == Invalid(OnlyTag)
  {
    RetagBareTitleRejected(radios, "", t, details);
  }
}

=== FILE: text.dfy ===
/** The other Python string methods the issue reporter relies on:
    `str.find` for one character, `sep.join`, `str.split(sep)` for a
    one-character separator (used here to read text as lines),
    `str.startswith`, `str.endswith`, substring tests and `str.replace`. */
module Text {

  predicate StartsWith(s: string, prefix: string) {
    |prefix| <= |s| && s[..|prefix|] == prefix
  }

  predicate EndsWith(s: string, suffix: string) {
    |suffix| <= |s| && s[|s| - |suffix|..] == suffix
  }

  /** The first index at or after `i` that holds `c`, or `|s|` when none does. */
  function FindFrom(s: string, c: char, i: nat): (j: nat)
    requires i <= |s|
    ensures i <= j <= |s|
    ensures forall k :: i <= k < j ==> s[k] != c
    ensures j == |s| || s[j] == c
    decreases |s| - i
  {
    if i < |s| && s[i] != c then FindFrom(s, c, i + 1) else i
  }

  /** `s.find(c)` where `c` is known to occur; `|s|` stands for "absent". */
  function Find(s: string, c: char): (j: nat)
    ensures j <= |s|
    ensures j < |s| <==> c in s
    ensures j < |s| ==> s[j] == c && forall k :: 0 <= k < j ==> s[k] != c
  {
    FindFrom(s, c, 0)
  }

  /** `sep.join(parts)` for a one-character separator. */
  function Join(sep: char, parts: seq<string>): string
  {
    if |parts| == 0 then []
    else if |parts| == 1 then parts[0]
    else parts[0] + [sep] + Join(sep, parts[1..])
  }

  /** The pieces of `s` between separators, when the piece under way so far
      is `cur`. */
  function SplitFrom(s: string, sep: char, cur: string): (parts: seq<string>)
    ensures |parts| >= 1
  {
    if s == [] then [cur]
    else if s[0] == sep then [cur] + SplitFrom(s[1..], sep, [])
    else SplitFrom(s[1..], sep, cur + [s[0]])
  }

  /** `s.split(sep)` for a one-character separator: the pieces between
      separators; there is always at least one, possibly empty, piece. */
  function SplitOn(s: string, sep: char): (parts: seq<string>)
    ensures |parts| >= 1
  {
    SplitFrom(s, sep, [])
  }

  lemma {:induction false} SplitFromAppend(a: string, sep: char, b: string, cur: string)
    ensures SplitFrom(a + [sep] + b, sep, cur) == SplitFrom(a, sep, cur) + SplitOn(b, sep)
  {
    var t := a + [sep] + b;
    if a == [] {
      assert t[0] == sep && t[1..] == b;
    } else {
      assert t[0] == a[0] && t[1..] == a[1..] + [sep] + b;
      if a[0] == sep {
        SplitFromAppend(a[1..], sep, b, []);
        var x := SplitFrom(a[1..], sep, []);
        var y := SplitOn(b, sep);
        assert [cur] + (x + y) == ([cur] + x) + y;
      } else {
        SplitFromAppend(a[1..], sep, b, cur + [a[0]]);
      }
    }
  }

  /** Splitting at a separator that was put between two strings yields the
      pieces of the first followed by the pieces of the second. */
  lemma {:induction false} SplitOnAppend(a: string, sep: char, b: string)
    ensures SplitOn(a + [sep] + b, sep) == SplitOn(a, sep) + SplitOn(b, sep)
  {
    SplitFromAppend(a, sep, b, []);
  }

  lemma {:induction false} SplitFromSingle(s: string, sep: char, cur: string)
    requires sep !in s
    ensures SplitFrom(s, sep, cur) == [cur + s]
  {
    if s == [] {
      assert cur + s == cur;
    } else {
      assert sep !in s[1..];
      SplitFromSingle(s[1..], sep, cur + [s[0]]);
      assert cur + [s[0]] + s[1..] == cur + s;
    }
  }

  /** A string without the separator is a single piece. */
  lemma {:induction false} SplitOnSingle(s: string, sep: char)
    requires sep !in s
    ensures SplitOn(s, sep) == [s]
  {
    SplitFromSingle(s, sep, []);
    assert [] + s == s;
  }

  /** Joining pieces that hold no separator and splitting again gives the
      pieces back. */
  lemma {:induction false} SplitOnJoin(sep: char, parts: seq<string>)
    requires |parts| >= 1
    requires forall k :: 0 <= k < |parts| ==> sep !in parts[k]
    ensures SplitOn(Join(sep, parts), sep) == parts
    decreases |parts|
  {
    SplitOnSingle(parts[0], sep);
    if |parts| > 1 {
      var rest := parts[1..];
      assert forall k :: 0 <= k < |rest| ==> rest[k] == parts[k + 1];
      SplitOnJoin(sep, rest);
      SplitOnAppend(parts[0], sep, Join(sep, rest));
      assert parts == [parts[0]] + rest;
    }
  }

  /** `s.replace(pat, rep)`: every non-overlapping occurrence of `pat`,
      scanning left to right, replaced by `rep`. */
  function Replace(s: string, pat: string, rep: string): string
    requires pat != []
    decreases |s|
  {
    if |s| == 0 then []
    else if StartsWith(s, pat) then rep + Replace(s[|pat|..], pat, rep)
    else [s[0]] + Replace(s[1..], pat, rep)
  }

  /** `pat` occurs in `s` starting at index `i`. */
  predicate OccursAt(s: string, pat: string, i: int) {
    0 <= i <= |s| - |pat| && s[i..i + |pat|] == pat
  }

  /** `pat not in s` for strings: no occurrence of `pat` anywhere in `s`. */
  predicate Free(s: string, pat: string) {
    forall i :: 0 <= i <= |s| - |pat| ==> !OccursAt(s, pat, i)
  }
}

=== FILE: validation.dfy ===
/** `github_issue_post_validate`: the checks a submission must pass before
    the reporter opens the new-issue page, and the issue-type selection
    that both the validation and the "Post Issue" handler perform.

    The source shows the first failing check's message in an error popup
    and returns `False`; here the check returns that reason instead. */
module Validation {
  import opened Whitespace
  import opened Text

  /** The issue types offered as radio buttons, in the order they are checked. */
  const IssueTypes: seq<string> := ["Question", "Bug", "Enhancement"]

  datatype Option<T> = None | Some(value: T)

  /** The window's values that the checks read: one flag per issue-type
      radio button (keyed by the type's name), the title field and the
      details field. */
  datatype Values = Values(radios: map<string, bool>, title: string, details: string)

  /** The window always holds a flag for every issue type. */
  predicate HasRadios(radios: map<string, bool>) {
    forall k :: 0 <= k < |IssueTypes| ==> IssueTypes[k] in radios
  }

  /** The index of the first issue type from `i` on whose flag is set, or
      `|IssueTypes|` when there is none. */
  function FirstChecked(radios: map<string, bool>, i: nat): (j: nat)
    requires HasRadios(radios) && i <= |IssueTypes|
    ensures i <= j <= |IssueTypes|
    ensures forall k :: i <= k < j ==> !radios[IssueTypes[k]]
    ensures j == |IssueTypes| || radios[IssueTypes[j]]
    decreases |IssueTypes| - i
  {
    if i < |IssueTypes| && !radios[IssueTypes[i]] then FirstChecked(radios, i + 1) else i
  }

  /** The loop over `issue_types` that stops at the first set flag: the
      selected issue type, or none. It picks Question over Bug over
      Enhancement, none exactly when no flag is set, and otherwise a listed
      type whose flag is set. */
  function SelectedType(radios: map<string, bool>): (r: Option<string>)
    requires HasRadios(radios)
    ensures r == FirstOfThree(radios)
    ensures r.None? <==> forall k :: 0 <= k < |IssueTypes| ==> !radios[IssueTypes[k]]
    ensures r.Some? ==> r.value in IssueTypes && radios[r.value]
  {
    var j := FirstChecked(radios, 0);
    if j < |IssueTypes| then
      assert IssueTypes[j] in IssueTypes;
      Some(IssueTypes[j])
    else None
  }

  /** Reference definition of the selection: the three types tried in order. */
  function FirstOfThree(radios: map<string, bool>): Option<string>
    requires HasRadios(radios)
  {
    assert "Question" == IssueTypes[0] && "Bug" == IssueTypes[1] && "Enhancement" == IssueTypes[2];
    if radios["Question"] then Some("Question")
    else if radios["Bug"] then Some("Bug")
    else if radios["Enhancement"] then Some("Enhancement")
    else None
  }

  /** Why a submission is rejected, one reason per check. */
  datatype Reason = NoIssueType | BlankTitle | OnlyTag | TooFewDetails

  /** The text of the error popup for each reason. */
  function Message(reason: Reason): string {
    match reason
    case NoIssueType => "Must choose issue type"
    case BlankTitle => "Title can't be blank"
    case OnlyTag => "Title can't be only tag"
    case TooFewDetails => "A little more details would be awesome"
  }

  datatype Verdict = Valid | Invalid(reason: Reason)

  /** `title.startswith("[") and title.endswith("]")`. */
  predicate TagOnly(title: string) {
    StartsWith(title, "[") && EndsWith(title, "]")
  }

  /** `github_issue_post_validate`: the four checks in order, the first one
      that fails deciding the verdict. */
  function Validate(v: Values): Verdict
    requires HasRadios(v.radios)
  {
    if SelectedType(v.radios).None? then Invalid(NoIssueType)
    else
      var title := Strip(v.title);
      if |title| == 0 then Invalid(BlankTitle)
      else if TagOnly(title) then Invalid(OnlyTag)
      else if |Split(v.details)| < 3 then Invalid(TooFewDetails)
      else Valid
  }

  /** The checks in the order the validation makes them. */
  const Checks: seq<Reason> := [NoIssueType, BlankTitle, OnlyTag, TooFewDetails]

  /** A text whose first and last characters are the brackets. */
  predicate Bracketed(t: string) {
    |t| > 0 && t[0] == '[' && t[|t| - 1] == ']'
  }

  /** Reference definition of each check failing, stated without the string
      methods the source uses: no flag set; a title of whitespace only; a
      title whose first and last non-whitespace characters are `[` and `]`;
      details with fewer than three word beginnings. */
  predicate Fails(check: Reason, v: Values)
    requires HasRadios(v.radios)
  {
    match check
    case NoIssueType => forall k :: 0 <= k < |IssueTypes| ==> !v.radios[IssueTypes[k]]
    case BlankTitle => AllSpace(v.title)
    case OnlyTag => Bracketed(Strip(v.title))
    case TooFewDetails => WordCount(v.details) < 3
  }

  lemma {:induction false} TagOnlyBracketed(t: string)
    ensures TagOnly(t) <==> Bracketed(t)
  {
    if |t| > 0 {
      assert t[..1] == [t[0]];
      assert t[|t| - 1..] == [t[|t| - 1]];
    }
  }

  /** Each check of `Validate` agrees with its reference definition. */
  lemma {:induction false} ChecksAgree(v: Values)
    requires HasRadios(v.radios)
    ensures Fails(NoIssueType, v) <==> SelectedType(v.radios).None?
    ensures Fails(BlankTitle, v) <==> |Strip(v.title)| == 0
    ensures Fails(OnlyTag, v) <==> TagOnly(Strip(v.title))
    ensures Fails(TooFewDetails, v) <==> |Split(v.details)| < 3
  {
    TagOnlyBracketed(Strip(v.title));
    SplitCount(v.details);
  }

  /** `Validate` is the chain of the reference checks, in order. */
  lemma {:induction false} ValidateByChecks(v: Values)
    requires HasRadios(v.radios)
    ensures Validate(v) ==
      if Fails(NoIssueType, v) then Invalid(NoIssueType)
      else if Fails(BlankTitle, v) then Invalid(BlankTitle)
      else if Fails(OnlyTag, v) then Invalid(OnlyTag)
      else if Fails(TooFewDetails, v) then Invalid(TooFewDetails)
      else Valid
  {
    ChecksAgree(v);
  }

  /** The chain of four checks, stated over which of them fail. */
  function Chain(fs: seq<bool>): Verdict
    requires |fs| == |Checks|
  {
    if fs[0] then Invalid(Checks[0]) else if fs[1] then Invalid(Checks[1])
    else if fs[2] then Invalid(Checks[2]) else if fs[3] then Invalid(Checks[3]) else Valid
  }

  lemma {:induction false} ChainFirstFailing(fs: seq<bool>)
    requires |fs| == |Checks|
    ensures Chain(fs) == Valid <==> forall i :: 0 <= i < |Checks| ==> !fs[i]
    ensures forall i :: 0 <= i < |Checks| ==>
      (Chain(fs) == Invalid(Checks[i]) <==> fs[i] && forall j :: 0 <= j < i ==> !fs[j])
  {
    assert Checks[0] == NoIssueType && Checks[1] == BlankTitle && Checks[2] == OnlyTag && Checks[3] == TooFewDetails;
    forall i | 0 <= i < |Checks|
      ensures Chain(fs) == Invalid(Checks[i]) <==> fs[i] && forall j :: 0 <= j < i ==> !fs[j]
    {
      if i == 3 {
        assert (forall j :: 0 <= j < i ==> !fs[j]) <==> !fs[0] && !fs[1] && !fs[2];
      } else if i == 2 {
        assert (forall j :: 0 <= j < i ==> !fs[j]) <==> !fs[0] && !fs[1];
      }
    }
    assert (forall i :: 0 <= i < |Checks| ==> !fs[i]) <==> !fs[0] && !fs[1] && !fs[2] && !fs[3];
  }

  /** The verdict is `Invalid` with the first check, in order, that fails,
      and `Valid` exactly when none fails. */
  lemma {:induction false} ValidateFirstFailing(v: Values)
    requires HasRadios(v.radios)
    ensures Validate(v) == Valid <==> forall i :: 0 <= i < |Checks| ==> !Fails(Checks[i], v)
    ensures forall i :: 0 <= i < |Checks| ==>
      (Validate(v) == Invalid(Checks[i]) <==> Fails(Checks[i], v) && forall j :: 0 <= j < i ==> !Fails(Checks[j], v))
  {
    var fs := [Fails(NoIssueType, v), Fails(BlankTitle, v), Fails(OnlyTag, v), Fails(TooFewDetails, v)];
    assert forall i :: 0 <= i < |Checks| ==> fs[i] == Fails(Checks[i], v);
    assert Validate(v) == Chain(fs) by {
      ValidateByChecks(v);
    }
    ChainFirstFailing(fs);
  }

  /** With no issue type chosen, the title and details do not matter. */
  lemma {:induction false} NoTypeDominates(radios: map<string, bool>, title: string, details: string)
    requires HasRadios(radios)
    requires forall k :: 0 <= k < |IssueTypes| ==> !radios[IssueTypes[k]]
    ensures Validate(Values(radios, title, details)) == Invalid(NoIssueType)
  {
  }

  /** The tag-only check looks at the first and last characters only: a
      title such as "[Bug] x]" is rejected although text follows the tag. */
  lemma {:induction false} ClosingBracketTitleRejected(radios: map<string, bool>, details: string)
    requires HasRadios(radios) && "Bug" in radios && radios["Bug"]
    ensures Validate(Values(radios, "[Bug] x]", details)) == Invalid(OnlyTag)
  {
    var t := "[Bug] x]";
    assert IssueTypes[1] == "Bug";
    StripTrimmed(t);
    TagOnlyBracketed(t);
  }

  /** Flags with only `t` set. */
  function Choose(t: string): map<string, bool> {
    map["Question" := t == "Question", "Bug" := t == "Bug", "Enhancement" := t == "Enhancement"]
  }

  lemma {:induction false} ChooseBug()
    ensures HasRadios(Choose("Bug")) && SelectedType(Choose("Bug")) == Some("Bug")
  {
  }

  lemma {:induction false} ExampleNoType()
    ensures Validate(Values(Choose(""), "x", "a b c")) == Invalid(NoIssueType)
  {
    NoTypeDominates(Choose(""), "x", "a b c");
  }

  lemma {:induction false} ExampleBlankTitle()
    ensures Validate(Values(Choose("Bug"), "   ", "a b c")) == Invalid(BlankTitle)
  {
    assert AllSpace("   ");
  }

  lemma {:induction false} ExampleTagOnly()
    ensures Validate(Values(Choose("Bug"), "[tag]", "a b c")) == Invalid(OnlyTag)
  {
    StripTrimmed("[tag]");
    TagOnlyBracketed("[tag]");
  }

  lemma {:induction false} HelloIsAPlainTitle()
    ensures Strip("hello") == "hello" && !TagOnly("hello")
  {
    StripTrimmed("hello");
    TagOnlyBracketed("hello");
  }

  lemma {:induction false} SplitTwoWords()
    ensures |Split("one two")| == 2
  {
    assert NoSpace("one") && NoSpace("two");
    assert "one two" == Join(' ', ["one", "two"]);
    SplitJoin(["one", "two"]);
  }

  lemma {:induction false} SplitThreeWords()
    ensures |Split("one two three")| == 3
  {
    assert NoSpace("one") && NoSpace("two") && NoSpace("three");
    assert "one two three" == Join(' ', ["one", "two", "three"]);
    SplitJoin(["one", "two", "three"]);
  }

  lemma {:induction false} ExampleTwoWords()
    ensures Validate(Values(Choose("Bug"), "hello", "one two")) == Invalid(TooFewDetails)
  {
    ChooseBug();
    HelloIsAPlainTitle();
    SplitTwoWords();
  }

  lemma {:induction false} ExampleValid()
    ensures Validate(Values(Choose("Bug"), "hello", "one two three")) == Valid
  {
    ChooseBug();
    HelloIsAPlainTitle();
    SplitThreeWords();
  }
}

=== FILE: whitespace.dfy ===
/** Python's `str.strip()` and `str.split()` (no argument), as the issue
    reporter uses them on the title and the details of an issue.

    Python treats every Unicode whitespace code point as a separator; this
    model fixes the set to six characters: space, tab, line feed, carriage
    return, form feed and vertical tab. Python's set also holds the ASCII
    separators `\x1c` to `\x1f`, the next-line and no-break spaces and the
    other Unicode spaces, which are not modelled.

    Both operations are written as scans over the indices of the string. */
module Whitespace {
  import opened Text

  predicate IsSpace(c: char) {
    c == ' ' || c == '\t' || c == '\n' || c == '\r' || c == '\U{0C}' || c == '\U{0B}'
  }

  predicate AllSpace(s: string) {
    forall i :: 0 <= i < |s| ==> IsSpace(s[i])
  }

  predicate NoSpace(s: string) {
    forall i :: 0 <= i < |s| ==> !IsSpace(s[i])
  }

  /** The first index at or after `i` that does not hold whitespace, or `|s|`. */
  function SkipSpace(s: string, i: nat): (j: nat)
    requires i <= |s|
    ensures i <= j <= |s|
    ensures forall k :: i <= k < j ==> IsSpace(s[k])
    ensures j == |s| || !IsSpace(s[j])
    decreases |s| - i
  {
    if i < |s| && IsSpace(s[i]) then SkipSpace(s, i + 1) else i
  }

  /** The first index at or after `i` that holds whitespace, or `|s|`. */
  function SkipWord(s: string, i: nat): (j: nat)
    requires i <= |s|
    ensures i <= j <= |s|
    ensures forall k :: i <= k < j ==> !IsSpace(s[k])
    ensures j == |s| || IsSpace(s[j])
    decreases |s| - i
  {
    if i < |s| && !IsSpace(s[i]) then SkipWord(s, i + 1) else i
  }

  /** Where `s[lo..hi]` ends once its trailing whitespace is dropped. */
  function TrimEnd(s: string, lo: nat, hi: nat): (j: nat)
    requires lo <= hi <= |s|
    ensures lo <= j <= hi
    ensures forall k :: j <= k < hi ==> IsSpace(s[k])
    ensures j == lo || !IsSpace(s[j - 1])
    decreases hi
  {
    if lo < hi && IsSpace(s[hi - 1]) then TrimEnd(s, lo, hi - 1) else hi
  }

  /** Where the text of `s` begins once leading whitespace is dropped. */
  function StripStart(s: string): (a: nat)
    ensures a <= |s|
  {
    SkipSpace(s, 0)
  }

  /** Where the text of `s` ends once trailing whitespace is dropped. */
  function StripEnd(s: string): (e: nat)
    ensures StripStart(s) <= e <= |s|
  {
    TrimEnd(s, StripStart(s), |s|)
  }

  /** `s.strip()`: empty exactly when `s` is all whitespace, otherwise
      starting and ending with a non-whitespace character. */
  function Strip(s: string): (r: string)
    ensures |r| <= |s|
    ensures r == [] || (!IsSpace(r[0]) && !IsSpace(r[|r| - 1]))
    ensures r == [] <==> AllSpace(s)
  {
    s[StripStart(s)..StripEnd(s)]
  }

  /** `strip()` removes whitespace only: `s` is some whitespace, then the
      stripped text, then some more whitespace. */
  lemma {:induction false} StripParts(s: string)
    ensures s == s[..StripStart(s)] + Strip(s) + s[StripEnd(s)..]
    ensures AllSpace(s[..StripStart(s)]) && AllSpace(s[StripEnd(s)..])
  {
    var a := StripStart(s);
    var e := StripEnd(s);
    forall k | 0 <= k < a
      ensures IsSpace(s[..a][k])
    {
      assert s[..a][k] == s[k];
    }
    forall k | 0 <= k < |s| - e
      ensures IsSpace(s[e..][k])
    {
      assert s[e..][k] == s[e + k];
    }
    assert s == s[..a] + s[a..e] + s[e..];
  }

  /** A string that already has no whitespace at either end is left alone. */
  lemma {:induction false} StripTrimmed(s: string)
    requires s == [] || (!IsSpace(s[0]) && !IsSpace(s[|s| - 1]))
    ensures Strip(s) == s
  {
    assert StripStart(s) == 0;
    assert StripEnd(s) == |s|;
    assert s[0..|s|] == s;
  }

  lemma {:induction false} StripIdempotent(s: string)
    ensures Strip(Strip(s)) == Strip(s)
  {
    StripTrimmed(Strip(s));
  }

  /** Scanning `p + s` for non-whitespace from beyond `p` is scanning `s`. */
  lemma {:induction false} SkipSpaceShift(p: string, s: string, i: nat)
    requires i <= |s|
    ensures SkipSpace(p + s, |p| + i) == |p| + SkipSpace(s, i)
    decreases |s| - i
  {
    if i < |s| {
      assert (p + s)[|p| + i] == s[i];
      if IsSpace(s[i]) {
        SkipSpaceShift(p, s, i + 1);
      }
    }
  }

  /** Trimming a stretch of `p + s` beyond `p` is trimming that stretch of `s`. */
  lemma {:induction false} TrimEndShift(p: string, s: string, lo: nat, hi: nat)
    requires lo <= hi <= |s|
    ensures TrimEnd(p + s, |p| + lo, |p| + hi) == |p| + TrimEnd(s, lo, hi)
    decreases hi
  {
    if lo < hi {
      assert (p + s)[|p| + hi - 1] == s[hi - 1];
      if IsSpace(s[hi - 1]) {
        TrimEndShift(p, s, lo, hi - 1);
      }
    }
  }

  lemma {:induction false} SkipSpaceOver(s: string, i: nat, j: nat)
    requires i <= j <= |s|
    requires forall k :: i <= k < j ==> IsSpace(s[k])
    ensures SkipSpace(s, i) == SkipSpace(s, j)
    decreases j - i
  {
    if i < j {
      SkipSpaceOver(s, i + 1, j);
    }
  }

  lemma {:induction false} StripStartAfterSpace(p: string, s: string)
    requires AllSpace(p)
    ensures StripStart(p + s) == |p| + StripStart(s)
  {
    var t := p + s;
    forall k | 0 <= k < |p|
      ensures IsSpace(t[k])
    {
      assert t[k] == p[k];
    }
    SkipSpaceOver(t, 0, |p|);
    SkipSpaceShift(p, s, 0);
  }

  lemma {:induction false} StripEndAfterSpace(p: string, s: string)
    requires AllSpace(p)
    ensures StripEnd(p + s) == |p| + StripEnd(s)
  {
    StripStartAfterSpace(p, s);
    TrimEndShift(p, s, StripStart(s), |s|);
  }

  lemma {:induction false} SliceShift(p: string, s: string, a: nat, e: nat)
    requires a <= e <= |s|
    ensures (p + s)[|p| + a..|p| + e] == s[a..e]
  {
  }

  /** Leading whitespace never changes what `strip()` returns. */
  lemma {:induction false} StripAfterSpace(p: string, s: string)
    requires AllSpace(p)
    ensures Strip(p + s) == Strip(s)
  {
    StripStartAfterSpace(p, s);
    StripEndAfterSpace(p, s);
    SliceShift(p, s, StripStart(s), StripEnd(s));
  }

  lemma {:induction false} TrimEndOver(s: string, lo: nat, i: nat, hi: nat)
    requires lo <= i <= hi <= |s|
    requires forall k :: i <= k < hi ==> IsSpace(s[k])
    ensures TrimEnd(s, lo, hi) == TrimEnd(s, lo, i)
    decreases hi
  {
    if i < hi {
      TrimEndOver(s, lo, i, hi - 1);
    }
  }

  lemma {:induction false} TrimEndPrefix(x: string, w: string, lo: nat, hi: nat)
    requires lo <= hi <= |x|
    ensures TrimEnd(x + w, lo, hi) == TrimEnd(x, lo, hi)
    decreases hi
  {
    if lo < hi {
      assert (x + w)[hi - 1] == x[hi - 1];
      TrimEndPrefix(x, w, lo, hi - 1);
    }
  }

  lemma {:induction false} StripBeforeSpaceFrom(x: string, w: string)
    requires AllSpace(w) && x != [] && !IsSpace(x[0])
    ensures Strip(x + w) == Strip(x)
  {
    var t := x + w;
    assert t[0] == x[0];
    assert StripStart(t) == 0 && StripStart(x) == 0;
    assert StripEnd(t) == StripEnd(x) by {
      forall k | |x| <= k < |t|
        ensures IsSpace(t[k])
      {
        assert t[k] == w[k - |x|];
      }
      TrimEndOver(t, 0, |x|, |t|);
      TrimEndPrefix(x, w, 0, |x|);
    }
    assert t[0..StripEnd(x)] == x[0..StripEnd(x)];
  }

  /** Trailing whitespace never changes what `strip()` returns. */
  lemma {:induction false} StripBeforeSpace(x: string, w: string)
    requires AllSpace(w)
    ensures Strip(x + w) == Strip(x)
  {
    var a := StripStart(x);
    var p, y := x[..a], x[a..];
    assert x == p + y;
    assert AllSpace(p) by {
      forall k | 0 <= k < |p|
        ensures IsSpace(p[k])
      {
        assert p[k] == x[k];
      }
    }
    if y == [] {
      assert AllSpace(x + w) by {
        forall k | 0 <= k < |x + w|
          ensures IsSpace((x + w)[k])
        {
          if k < |x| {
            assert (x + w)[k] == p[k];
          } else {
            assert (x + w)[k] == w[k - |x|];
          }
        }
      }
    } else {
      assert y[0] == x[a];
      assert x + w == p + (y + w);
      StripAfterSpace(p, y + w);
      StripBeforeSpaceFrom(y, w);
      StripAfterSpace(p, y);
    }
  }

  /** The words of `s[i..]`: the maximal runs of non-whitespace characters,
      in order. */
  function WordsFrom(s: string, i: nat): seq<string>
    requires i <= |s|
    decreases |s| - i
  {
    var a := SkipSpace(s, i);
    if a == |s| then []
    else [s[a..SkipWord(s, a)]] + WordsFrom(s, SkipWord(s, a))
  }

  /** `s.split()`. */
  function Split(s: string): seq<string> {
    WordsFrom(s, 0)
  }

  lemma {:induction false} WordsFromAreWords(s: string, i: nat)
    requires i <= |s|
    ensures forall k :: 0 <= k < |WordsFrom(s, i)| ==> WordsFrom(s, i)[k] != [] && NoSpace(WordsFrom(s, i)[k])
    decreases |s| - i
  {
    var a := SkipSpace(s, i);
    if a < |s| {
      var b := SkipWord(s, a);
      var words := WordsFrom(s, i);
      var rest := WordsFrom(s, b);
      assert words == [s[a..b]] + rest;
      WordsFromAreWords(s, b);
      forall k | 0 <= k < |words|
        ensures words[k] != [] && NoSpace(words[k])
      {
        if k == 0 {
          forall m | 0 <= m < b - a
            ensures !IsSpace(s[a..b][m])
          {
            assert s[a..b][m] == s[a + m];
          }
        } else {
          assert words[k] == rest[k - 1];
        }
      }
    }
  }

  /** Every word `split()` returns is non-empty and holds no whitespace. */
  lemma {:induction false} SplitWords(s: string)
    ensures forall k :: 0 <= k < |Split(s)| ==> Split(s)[k] != [] && NoSpace(Split(s)[k])
  {
    WordsFromAreWords(s, 0);
  }

  lemma {:induction false} SkipWordShift(p: string, s: string, i: nat)
    requires i <= |s|
    ensures SkipWord(p + s, |p| + i) == |p| + SkipWord(s, i)
    decreases |s| - i
  {
    if i < |s| {
      assert (p + s)[|p| + i] == s[i];
      if !IsSpace(s[i]) {
        SkipWordShift(p, s, i + 1);
      }
    }
  }

  lemma {:induction false} SkipWordOver(s: string, i: nat, j: nat)
    requires i <= j <= |s|
    requires forall k :: i <= k < j ==> !IsSpace(s[k])
    ensures SkipWord(s, i) == SkipWord(s, j)
    decreases j - i
  {
    if i < j {
      SkipWordOver(s, i + 1, j);
    }
  }

  /** Two scans that find the same next word, `d` places apart, and
      agree on everything after it, yield the same words. */
  lemma {:induction false} WordsFromTransfer(t: string, s: string, d: nat, i: nat)
    requires i <= |s| && d + |s| == |t|
    requires SkipSpace(t, d + i) == d + SkipSpace(s, i)
    requires SkipSpace(s, i) < |s| ==>
      var a := SkipSpace(s, i);
      var b := SkipWord(s, a);
      SkipWord(t, d + a) == d + b && t[d + a..d + b] == s[a..b] && WordsFrom(t, d + b) == WordsFrom(s, b)
    ensures WordsFrom(t, d + i) == WordsFrom(s, i)
  {
  }

  /** Splitting `p + s` beyond `p` is splitting `s`. */
  lemma {:induction false} WordsFromShift(p: string, s: string, i: nat)
    requires i <= |s|
    ensures WordsFrom(p + s, |p| + i) == WordsFrom(s, i)
    decreases |s| - i
  {
    var a := SkipSpace(s, i);
    SkipSpaceShift(p, s, i);
    if a < |s| {
      var b := SkipWord(s, a);
      SkipWordShift(p, s, a);
      SliceShift(p, s, a, b);
      WordsFromShift(p, s, b);
    }
    WordsFromTransfer(p + s, s, |p|, i);
  }

  /** A word followed by a space: `split()` takes the word off first. */
  lemma {:induction false} SplitWordThenRest(w: string, rest: string)
    requires w != [] && NoSpace(w)
    ensures Split(w + [' '] + rest) == [w] + Split(rest)
  {
    var q := w + [' '];
    var t := q + rest;
    assert t[0] == w[0];
    assert SkipSpace(t, 0) == 0;
    assert SkipWord(t, 0) == |w| by {
      forall k | 0 <= k < |w|
        ensures !IsSpace(t[k])
      {
        assert t[k] == w[k];
      }
      SkipWordOver(t, 0, |w|);
      assert t[|w|] == ' ';
    }
    assert t[0..|w|] == w;
    assert WordsFrom(t, |w|) == WordsFrom(t, |q| + 0) by {
      assert t[|w|] == ' ';
      assert SkipSpace(t, |w|) == SkipSpace(t, |w| + 1);
    }
    WordsFromShift(q, rest, 0);
  }

  /** A single word is split into itself. */
  lemma {:induction false} SplitOneWord(w: string)
    requires w != [] && NoSpace(w)
    ensures Split(w) == [w]
  {
    assert SkipSpace(w, 0) == 0;
    SkipWordOver(w, 0, |w|);
    assert SkipWord(w, 0) == |w|;
    assert WordsFrom(w, |w|) == [];
    assert w[0..|w|] == w;
  }

  /** Words without whitespace, joined by single spaces, split back into
      the same words. */
  lemma {:induction false} SplitJoin(words: seq<string>)
    requires forall k :: 0 <= k < |words| ==> words[k] != [] && NoSpace(words[k])
    ensures Split(Join(' ', words)) == words
    decreases |words|
  {
    if |words| == 1 {
      SplitOneWord(words[0]);
    } else if |words| > 1 {
      var rest := words[1..];
      assert forall k :: 0 <= k < |rest| ==> rest[k] == words[k + 1];
      SplitJoin(rest);
      SplitWordThenRest(words[0], Join(' ', rest));
      assert words == [words[0]] + rest;
    }
  }

  /** A word begins at `k`: a non-whitespace character at the start of
      the string or right after whitespace. */
  predicate IsWordStart(s: string, k: nat)
    requires k < |s|
  {
    !IsSpace(s[k]) && (k == 0 || IsSpace(s[k - 1]))
  }

  /** Reference definition of the number of words of `s[i..]`: the number of
      indices from `i` on where a word begins. */
  function CountStarts(s: string, i: nat): nat
    requires i <= |s|
    decreases |s| - i
  {
    if i == |s| then 0
    else (if IsWordStart(s, i) then 1 else 0) + CountStarts(s, i + 1)
  }

  function WordCount(s: string): nat {
    CountStarts(s, 0)
  }

  lemma {:induction false} CountStartsOverSpace(s: string, i: nat, j: nat)
    requires i <= j <= |s|
    requires forall k :: i <= k < j ==> IsSpace(s[k])
    ensures CountStarts(s, i) == CountStarts(s, j)
    decreases j - i
  {
    if i < j {
      CountStartsOverSpace(s, i + 1, j);
    }
  }

  /** Inside a word, after its first character, no word begins. */
  lemma {:induction false} CountStartsInWord(s: string, i: nat, j: nat)
    requires 0 < i <= j <= |s|
    requires forall k :: i - 1 <= k < j ==> !IsSpace(s[k])
    ensures CountStarts(s, i) == CountStarts(s, j)
    decreases j - i
  {
    if i < j {
      CountStartsInWord(s, i + 1, j);
    }
  }

  /** A position where no word is under way: the start, the end, or next
      to whitespace. */
  predicate AtBoundary(s: string, i: nat)
    requires i <= |s|
  {
    i == 0 || i == |s| || IsSpace(s[i - 1]) || IsSpace(s[i])
  }

  /** After skipping whitespace from a boundary, a word begins, if anything is left. */
  lemma {:induction false} WordStartAfterSpace(s: string, i: nat)
    requires i <= |s| && AtBoundary(s, i) && SkipSpace(s, i) < |s|
    ensures IsWordStart(s, SkipSpace(s, i))
  {
    var a := SkipSpace(s, i);
    if a > i {
      assert IsSpace(s[a - 1]);
    }
  }

  lemma {:induction false} WordsFromCount(s: string, i: nat)
    requires i <= |s| && AtBoundary(s, i)
    ensures |WordsFrom(s, i)| == CountStarts(s, i)
    decreases |s| - i
  {
    var a := SkipSpace(s, i);
    CountStartsOverSpace(s, i, a);
    if a < |s| {
      var b := SkipWord(s, a);
      assert a < b;
      assert WordsFrom(s, i) == [s[a..b]] + WordsFrom(s, b);
      WordStartAfterSpace(s, i);
      assert CountStarts(s, a) == 1 + CountStarts(s, a + 1);
      CountStartsInWord(s, a + 1, b);
      assert AtBoundary(s, b);
      WordsFromCount(s, b);
    } else {
      assert WordsFrom(s, i) == [];
    }
  }

  /** `split()` yields exactly as many words as there are word beginnings. */
  lemma {:induction false} SplitCount(s: string)
    ensures |Split(s)| == WordCount(s)
  {
    WordsFromCount(s, 0);
  }

  /** Counting from further on never finds more word beginnings. */
  lemma {:induction false} CountStartsMonotone(s: string, i: nat, j: nat)
    requires i <= j <= |s|
    ensures CountStarts(s, i) >= CountStarts(s, j)
    decreases j - i
  {
    if i < j {
      CountStartsMonotone(s, i + 1, j);
    }
  }

  /** A word beginning at `k` adds one to the count from any `i <= k`. */
  lemma {:induction false} CountStartsAtLeast(s: string, i: nat, k: nat)
    requires i <= k < |s| && IsWordStart(s, k)
    ensures CountStarts(s, i) >= 1 + CountStarts(s, k + 1)
  {
    CountStartsMonotone(s, i, k);
  }

  /** The non-whitespace characters of `s[i..]`, in order. */
  function SqueezeFrom(s: string, i: nat): string
    requires i <= |s|
    decreases |s| - i
  {
    if i == |s| then []
    else (if IsSpace(s[i]) then [] else [s[i]]) + SqueezeFrom(s, i + 1)
  }

  function Concat(words: seq<string>): string {
    if |words| == 0 then [] else words[0] + Concat(words[1..])
  }

  lemma {:induction false} SqueezeOverSpace(s: string, i: nat, j: nat)
    requires i <= j <= |s|
    requires forall k :: i <= k < j ==> IsSpace(s[k])
    ensures SqueezeFrom(s, i) == SqueezeFrom(s, j)
    decreases j - i
  {
    if i < j {
      SqueezeOverSpace(s, i + 1, j);
    }
  }

  lemma {:induction false} SqueezeOverWord(s: string, i: nat, j: nat)
    requires i <= j <= |s|
    requires forall k :: i <= k < j ==> !IsSpace(s[k])
    ensures SqueezeFrom(s, i) == s[i..j] + SqueezeFrom(s, j)
    decreases j - i
  {
    if i < j {
      var rest := SqueezeFrom(s, j);
      assert SqueezeFrom(s, i) == [s[i]] + SqueezeFrom(s, i + 1);
      SqueezeOverWord(s, i + 1, j);
      assert s[i..j] == [s[i]] + s[i + 1..j];
      assert [s[i]] + (s[i + 1..j] + rest) == ([s[i]] + s[i + 1..j]) + rest;
    } else {
      assert s[i..j] == [];
    }
  }

  lemma {:induction false} WordsFromContents(s: string, i: nat)
    requires i <= |s|
    ensures Concat(WordsFrom(s, i)) == SqueezeFrom(s, i)
    decreases |s| - i
  {
    var a := SkipSpace(s, i);
    SqueezeOverSpace(s, i, a);
    if a < |s| {
      var b := SkipWord(s, a);
      SqueezeOverWord(s, a, b);
      WordsFromContents(s, b);
      assert WordsFrom(s, i) == [s[a..b]] + WordsFrom(s, b);
    }
  }

  /** The words of `split()`, put back together, are exactly the
      non-whitespace characters of `s`, in order: no character is lost or
      added. With `SplitWords` and `SplitCount` this fixes how many words
      there are and what they hold together, not where each word breaks. */
  lemma {:induction false} SplitContents(s: string)
    ensures Concat(Split(s)) == SqueezeFrom(s, 0)
  {
    WordsFromContents(s, 0);
  }
}
